=== FILE: README.md ===
# Millionka AI front end — a Dafny model

This project models the logic of a small browser front end. A user uploads a portrait,
picks an "atmosphere" modifier, and asks an image-generation model to place the person in
Vladivostok's historic Millionka district. The model covers three parts:

- **The generation client** (`GeminiService`, `gemini_service.dfy`). It strips the data-URL
  prefix from the browser reader's output. It builds the two-part request: the image part
  first, then the instruction text. The instruction falls back to a default prompt when none
  is given. It scans the response's first candidate for the first part that carries inline
  data, and labels that data as PNG. It also covers the two extraction errors.
- **The application state machine** (`App`, `app.dfy`). The page's state hooks form one
  record, and each handler is a pure transition. `handleGenerate` is split into a
  synchronous start and a separate completion event. A completion may arrive after any other
  event: a clear, a new selection, or another start. The invariants are proved over
  *arbitrary* event sequences.
- **The uploader's event rules** (`ImageUploader`, `image_uploader.dfy`). A drag event's type
  sets the highlight flag. A drop or an input change forwards only the first file, and only
  if there is one. The uploader shows either a preview with a Clear button or the drop zone.

`Session` (`session.dfy`) puts these together as the page the user can drive. Actions are
limited to the enabled buttons, the drop zone shown when nothing is selected, and the
selector's four options. The session counts generation calls that have started and have not yet resolved or rejected. A call whose file read fails is counted too, although it never reaches the service.
`Wrappers` and `Types` hold `Option`/`Result`, the `File` record and the five-member `AppState`
enum (`Phase`).

What the proofs show about interleavings:

- The Generate button is disabled while PROCESSING. That is the only guard against
  overlapping generation calls. `handleGenerate` itself does not check the state.
- Clear stays available during processing. So through the page alone, a user can start,
  clear, pick another photo and start again. Two generation calls are then outstanding
  (`Session.TwoInFlight`).
- If the newer call fails and the older one then succeeds, the page ends in SUCCESS. It
  shows the first photo's result next to the second photo, and the failure text is still
  stored (`Session.OverlappingRequests`).
- So "an error message is stored exactly in ERROR" is not an invariant. What survives every
  interleaving:
  - UPLOADING is never reached.
  - SUCCESS has an image.
  - ERROR has a non-empty message.
  - A stored message implies ERROR or SUCCESS.
  - PROCESSING has a file and no message.
  - In the session, PROCESSING implies at least one outstanding generation call.

Behaviour of the code a reader of the handlers might not expect; the model follows the code:

- A present but empty parts list fails with "No image data found in response", not "No
  content generated". In JavaScript an empty array is truthy
  (`services/geminiService.ts:58-68`).
- A read failure is not surfaced verbatim. The reader rejects with its progress event, which
  has no `message`, so the page shows the generic fallback text
  (`services/geminiService.ts:24`, `App.tsx:44`).
- A start while PROCESSING is not refused by the handler. It is only unreachable because the
  button is disabled (`App.tsx:31`, `App.tsx:101`).
- More than one generation call can be in flight, as shown above.
- The initial modifier `Historical 19th century look` (`App.tsx:14`) is not the value of any of
  the selector's four options (`App.InitialModifierNotOffered`). A generation before
  the user touches the selector therefore sends a modifier the selector does not display.

The external service is a parameter: a total function from requests to
`Responded(response) | TransportFailed(message)`. The browser's data-URL read is an input:
`Loaded(dataUrl) | ReadFailed`. `split(',')[1]` yields `undefined` when there is no comma.
This is modelled as `None` in the request's image blob. A response part that has inline
data but no `data` is interpolated as the text `undefined`, so the result is
`data:image/png;base64,undefined`, as JavaScript produces.

## Model

| member | source | states |
|---|---|---|
| GeminiService.Split | services/geminiService.ts:16 | `split(',')` yields at least one segment, and no segment contains a comma. The first segment is a prefix of the input, followed by a comma or by the end of the input. |
| GeminiService.JoinSplit | services/geminiService.ts:16 | Joining the segments with the separator restores the original string, so no characters are lost or invented. |
| GeminiService.SplitJoin | services/geminiService.ts:16 | Splitting a join of non-empty, separator-free segment lists gives the segments back. Together with JoinSplit this makes split and join inverse. |
| GeminiService.PayloadOf | services/geminiService.ts:14-21 | `split(',')[1]` is undefined exactly when there is no comma. Otherwise it is the comma-free text that starts right after the first comma and runs to the next comma or the end. |
| GeminiService.DataUrlPayload | services/geminiService.ts:15-16 | For a data URL `data:<type>;base64,<data>` (section 3 of RFC 2397) with comma-free type and data, the stripped payload is exactly `<data>`. |
| GeminiService.ImagePart | services/geminiService.ts:17-21 | The resolved part is inline data only, with no text. Its data is the stripped payload, which is absent exactly when the data URL has no comma. Its MIME type is the file's `type`. |
| GeminiService.ImagePartFromDataUrl | services/geminiService.ts:17-21 | The image part carries the stripped payload, and its MIME type is the file's own `type`. The type written in the data URL is never used. |
| GeminiService.BasePrompt | services/geminiService.ts:40 | The instruction is never empty. It is the caller's prompt when that is present and non-empty, and otherwise the fixed default prompt. |
| GeminiService.BuildRequest | services/geminiService.ts:42-50 | The request targets the fixed model id and has exactly two parts: the image part first, then a text-only part holding the instruction. |
| GeminiService.RequestPartsOrdered | services/geminiService.ts:46-50 | In a built request, inline data appears in position 0 only and text in position 1 only. |
| GeminiService.FirstParts | services/geminiService.ts:56 | Parts are found exactly when the candidates list, its first element, that element's content and the content's parts are all present. Only the first candidate is consulted. |
| GeminiService.FirstInline | services/geminiService.ts:62-65 | This is the reference for the scan. The result is absent exactly when no part carries inline data. Otherwise it is the index of a part with inline data, and every part before it has none. |
| GeminiService.ScanParts | services/geminiService.ts:62-66 | The loop finds nothing exactly when no part has inline data. Otherwise it returns the PNG data URL of the earliest part that has inline data. Its result equals the one built from the FirstInline reference that ExtractImage uses. |
| GeminiService.ExtractImage | services/geminiService.ts:56-68 | "No content generated" exactly when the parts are missing. "No image data found" exactly when the parts are present but none carries inline data, including an empty list. Otherwise the result is the PNG URL of the first inline-data part. |
| GeminiService.TextOnlyFails | services/geminiService.ts:62-68 | A response whose parts carry only text fails with the no-image error. Text is never returned. |
| GeminiService.LaterPartsIgnored | services/geminiService.ts:62-64 | The first inline-data part decides the result. Parts after it and other candidates make no difference. |
| GeminiService.PngDataUrl | services/geminiService.ts:64 | The returned URL always starts with `data:image/png;base64,`. After that prefix comes exactly the part's data, whatever MIME type the part declared. When the part has no `data`, the URL is the prefix followed by `undefined`. |
| GeminiService.ErrorMessage | services/geminiService.ts:24 | A read failure carries no `message`. The two extraction errors carry their fixed texts, and a transport error carries its own message, possibly absent. |
| GeminiService.Generate | services/geminiService.ts:36-73 | A read failure rejects with the read error. A transport failure is rethrown unchanged. A response goes through the extraction step. Any success is a PNG data URL. |
| ImageUploader.FirstFile | components/ImageUploader.tsx:27 | `files && files[0]` is a file exactly when the list exists and is non-empty, and then it is the list's first file. |
| ImageUploader.Forwarded | components/ImageUploader.tsx:27-28 | `onImageSelect` is called at most once. It is called exactly when the list is non-empty, and then with the first file. |
| ImageUploader.HandleDrag | components/ImageUploader.tsx:13-21 | `dragenter` and `dragover` set the highlight and `dragleave` clears it. Any other event type leaves it unchanged. |
| ImageUploader.DragAllIsLastDecision | components/ImageUploader.tsx:13-21 | After any sequence of drag events the flag is the one set by the last `dragenter`, `dragover` or `dragleave`, or the initial flag when none occurs. Other event types have no effect. |
| ImageUploader.HandleDrop | components/ImageUploader.tsx:23-30 | A drop always clears the highlight, with or without files. It forwards exactly the files Forwarded describes. |
| ImageUploader.HandleChange | components/ImageUploader.tsx:32-37 | An input change leaves the highlight as it was and forwards only the first chosen file, if any. |
| ImageUploader.DropSelectsFirstOnly | components/ImageUploader.tsx:27-35 | A non-empty list selects exactly `[files[0]]`. An empty or absent list selects nothing, for both drop and change. |
| ImageUploader.Render | components/ImageUploader.tsx:39-81 | Clear is offered exactly when an image is selected. The file input and drop zone exist exactly when none is selected. The drop zone is highlighted exactly when the drag flag is set. |
| App.Init | App.tsx:10-14 | The page starts with no file, no image, IDLE, an empty error text and the initial modifier `Historical 19th century look`. |
| App.SelectImage | App.tsx:16-21 | Selecting sets the file, removes the result, clears the error and returns to IDLE. The modifier is unchanged. |
| App.ClearImage | App.tsx:23-28 | Clearing removes the file and the result, clears the error and returns to IDLE. The modifier is unchanged. |
| App.StartGenerate | App.tsx:30-34 | Without a file the state is unchanged. With one the state becomes PROCESSING and the error is cleared. The file, the modifier and any earlier image are kept. |
| App.ErrorText | App.tsx:44 | The shown error text is the rejection's message when that is non-empty, and otherwise the fixed fallback. It is never empty. |
| App.CompleteOk | App.tsx:39-41 | A success stores the URL and enters SUCCESS. The file, the modifier and the stored error text are untouched. |
| App.CompleteErr | App.tsx:42-45 | A failure enters ERROR with a non-empty message. The previous image and the file stay. |
| App.Completion | App.tsx:39-44 | A resolved URL becomes a success event carrying that URL. A rejection becomes a failure event carrying the error's `message` property, and applying it always gives ERROR with a non-empty text. |
| App.CompletionMessages | App.tsx:42-45 | A read failure shows the fallback text. The extraction errors show their own texts, and a transport error shows its non-empty message. |
| App.FullPrompt | App.tsx:37 | The prompt is the fixed opening, then the modifier, then the fixed ending. So it always contains the selected modifier, at a fixed offset. |
| App.ModifierRoundTrip | App.tsx:37 | The modifier can be read back from the prompt, so different modifiers give different prompts. |
| App.PromptOverridesDefault | App.tsx:37-39 | The page's prompt is never empty and never the client's default prompt, so the client's fallback is never used from the page. |
| App.GenerationRequest | App.tsx:30-39 | Given the reader's data URL, a request is built exactly when a file is selected. It holds that file's image part and the full prompt for the current modifier. If the file read fails, no request is sent (services/geminiService.ts:24). |
| App.InitialModifierNotOffered | App.tsx:88-97 | The initial modifier (line 14) is not the value of any of the selector's four options. |
| App.GenerateEnabled | App.tsx:101 | The Generate button is enabled only with a file selected and never in PROCESSING. Pressing it when enabled always enters PROCESSING. |
| App.ErrorPanelShown | App.tsx:121 | The error panel is shown in ERROR. It never appears together with the Download/Regenerate buttons or with the spinner. |
| App.ResultActionsShown | App.tsx:162 | Download and Regenerate are shown only when the output panel displays the stored image and Download would produce a link. |
| App.OutputPanel | App.tsx:133-159 | The spinner shows exactly in PROCESSING. Outside PROCESSING the image shows exactly when a non-empty image is stored. |
| App.Download | App.tsx:48-57 | Download creates a link exactly when a non-empty image is stored. The link points at that image and is named `millionka-style.png`. |
| App.ShownDownloadWorks | App.tsx:162-170 | Whenever the Download button is shown, pressing it produces a link to the stored image. |
| App.StepInv | App.tsx:10-45 | Every event preserves the invariant: no UPLOADING, an image in SUCCESS, a message in ERROR, a message only in ERROR or SUCCESS, and a file but no message in PROCESSING. |
| App.RunInv | App.tsx:10-45 | The invariant is kept over any event sequence, including late completions. |
| App.SetPromptModifier | App.tsx:88-90 | The selector sets the modifier to the chosen value. File, image, state and error text are unchanged. |
| App.Reachable | App.tsx:10-45 | From the initial state, after any events, the invariant holds: UPLOADING (types.ts:8) never occurs, SUCCESS has an image, ERROR has a message, a message implies ERROR or SUCCESS, and PROCESSING has a file and no message. |
| App.GenerateEnabledIffEffective | App.tsx:101 | In reachable states the Generate button is enabled exactly when pressing it changes the application record. A start in PROCESSING leaves the record alone but still starts another generation call (counted by `Session.Press`). |
| App.ClearOfferedWhileProcessing | components/ImageUploader.tsx:39-53 | In PROCESSING a file is always selected, so the uploader shows Clear. A completion can therefore arrive after a clear. |
| App.ErrorPanelHasText | App.tsx:121-126 | In reachable states the error panel never shows an empty message. |
| App.SuccessShowsActions | App.tsx:162 | If every success carries a URL produced by the client, SUCCESS always shows Download and Regenerate. |
| App.RunKeepsClientImage | App.tsx:39-41 | If every success carries a client-produced URL, the stored image is always a PNG data URL. |
| App.LateSuccessAfterClear | App.tsx:39-41 | Start, clear, late success: the page is in SUCCESS with no file. Regenerate is shown, but pressing it changes nothing. |
| App.LateSuccessKeepsError | App.tsx:39-44 | A late success after a newer failure leaves SUCCESS with the failure's text still stored and the older result next to the newer file. |
| App.SingleImageScenario | services/geminiService.ts:62-64 | One inline part with data `Zm9v` gives the image `data:image/png;base64,Zm9v` and SUCCESS. |
| App.EmptyPartsScenario | services/geminiService.ts:58-68 | An empty parts list ends in ERROR with "No image data found in response". |
| Session.Init | components/ImageUploader.tsx:11 | The page starts from the application's initial state with the drag highlight off and no generation call outstanding, and this state satisfies the session invariant. |
| Session.Allowed | App.tsx:99-101 | The page offers uploader input only when no image is selected (components/ImageUploader.tsx:39-81), Clear only when one is, Generate only through the enabled button, Regenerate only under the condition at line 162, and completions only for outstanding generation calls. |
| Session.Press | App.tsx:30-34 | Pressing Generate or Regenerate starts a generation call exactly when a file is selected. The call is counted in `inFlight` until it resolves or rejects, a read failure included. |
| Session.Apply | App.tsx:77-177 | Each offered control runs its handler. A drop clears the highlight and an input change keeps it; either selects the first file, if any (lines 77-81). Clear clears (line 80), the selector sets the modifier (line 90), and Generate and Regenerate start (lines 100, 172). Completions apply the success or failure handler. Only completions lower the outstanding count, and only starts raise it. |
| Session.Reachable | App.tsx:99-179 | Every action the page offers preserves the invariant, including that the spinner never shows without an outstanding generation call. |
| Session.ReachableFromStart | App.tsx:99-179 | Through the page alone: UPLOADING never occurs, PROCESSING always has a generation call outstanding, and the error panel always has text. |
| Session.NoStartWhileProcessing | App.tsx:101 | In PROCESSING neither Generate nor Regenerate is offered. The button is the only guard. |
| Session.TwoInFlight | components/ImageUploader.tsx:39-53 | Start, clear, pick another photo, start again: all offered by the page, and two generation calls are then outstanding. |
| Session.OverlappingRequests | App.tsx:39-44 | If the newer call then fails and the older succeeds, the page is in SUCCESS with the older photo's result, the newer photo and a non-empty error text. |

## Left out

- Base64 encoding and the `FileReader` read: these are browser APIs. The data URL the reader produces is an input, so no encode/decode round trip is stated.
- The `GoogleGenAI` client, the API key and the network call: these are a foreign SDK and I/O. The service is a function parameter whose answers are arbitrary.
- `console.error`, DOM anchor creation and clicking, and `URL.createObjectURL`: these are side effects. A download is modelled as the link it would create.
- Async timing: completions are events that may arrive at any point.
- The header component, the markup, the styling and the footer year: these are presentation only.
- The `GeneratedImageResult` interface: it is declared but never used.
- Drag events that bubble while in preview mode: in preview no drag handlers are attached, so `Session` only offers drag actions in the drop zone.

=== FILE: app.dfy ===
/** The application component as a state machine. Each handler is a pure transition on
    the component's state record. `handleGenerate` is split in two: the synchronous start
    (before the `await`) and a completion event that may arrive at any later point, after
    any other events, including a clear, a new selection or another start. */
module App {
  import opened Wrappers
  import opened Types
  import GeminiService
  import ImageUploader

  /** The component's state hooks. */
  datatype Model = Model(
    selectedFile: Option<File>,
    generatedImage: Option<string>,
    appState: Phase,
    errorMsg: string,
    promptModifier: string)

  const InitialModifier: string := "Historical 19th century look"

  /** The values of the atmosphere selector's four options. */
  const ModifierOptions: seq<string> := [
    "Historical 19th century look, sepia tones, old brick",
    "Sunny day, vibrant colors, detailed brickwork, bustling street",
    "Night time, lanterns, foggy atmosphere, mysterious alley",
    "Snowy winter day in Vladivostok, cozy atmosphere"]

  const FallbackError: string := "Failed to generate image. Please try again."
  const DownloadName: string := "millionka-style.png"

  const PromptPrefix: string := "Change the background to the historic Millionka district in Vladivostok. "
  const PromptSuffix: string :=
    ". Keep the person in the foreground exactly as is, matching lighting to the scene. High quality, realistic, cinematic."

  /** The `useState` initial values: no file, no image, IDLE, no error text and the
      initial modifier. */
  function Init(): (r: Model)
    ensures r.selectedFile.None? && r.generatedImage.None?
    ensures r.appState == Idle && r.errorMsg == ""
    ensures r.promptModifier == InitialModifier
  {
    Model(None, None, Idle, "", InitialModifier)
  }

  /** The initial modifier is not the value of any option of the selector. */
  lemma InitialModifierNotOffered()
    ensures Init().promptModifier !in ModifierOptions
  {
  }

  // ---------------------------------------------------------------------------
  // Events and handlers

  datatype Event =
    | Select(file: File)
    | Clear
    | SetModifier(value: string)
    | GenerateStart
    | GenerateOk(url: string)
    | GenerateErr(message: Option<string>)   // the rejection's `message` property

  /** `handleImageSelect`: new file, no result, no error, back to IDLE. */
  function SelectImage(m: Model, f: File): (m': Model)
    ensures m'.selectedFile == Some(f) && m'.generatedImage.None?
    ensures m'.appState == Idle && m'.errorMsg == ""
    ensures m'.promptModifier == m.promptModifier
  {
    m.(selectedFile := Some(f), generatedImage := None, appState := Idle, errorMsg := "")
  }

  /** `handleClear`: no file, no result, no error, back to IDLE. */
  function ClearImage(m: Model): (m': Model)
    ensures m'.selectedFile.None? && m'.generatedImage.None?
    ensures m'.appState == Idle && m'.errorMsg == ""
    ensures m'.promptModifier == m.promptModifier
  {
    m.(selectedFile := None, generatedImage := None, appState := Idle, errorMsg := "")
  }

  /** The synchronous part of `handleGenerate`: without a file nothing happens; with one,
      PROCESSING with the error cleared, and the file, modifier and old image kept. */
  function StartGenerate(m: Model): (m': Model)
    ensures m.selectedFile.None? ==> m' == m
    ensures m.selectedFile.Some? ==>
      m' == Model(m.selectedFile, m.generatedImage, Processing, "", m.promptModifier)
  {
    if m.selectedFile.None? then m else m.(appState := Processing, errorMsg := "")
  }

  /** `err.message || fallback`: the message shown for a rejection is never empty. */
  function ErrorText(message: Option<string>): (t: string)
    ensures t != ""
    ensures message.Some? && message.value != "" ==> t == message.value
    ensures message.None? || message.value == "" ==> t == FallbackError
  {
    if message.Some? && message.value != "" then message.value else FallbackError
  }

  /** Resolution of the awaited call: the image and SUCCESS; the error text is left alone. */
  function CompleteOk(m: Model, url: string): (m': Model)
    ensures m'.generatedImage == Some(url) && m'.appState == Success
    ensures m'.selectedFile == m.selectedFile && m'.errorMsg == m.errorMsg
    ensures m'.promptModifier == m.promptModifier
  {
    m.(generatedImage := Some(url), appState := Success)
  }

  /** Rejection of the awaited call: ERROR with a non-empty message; the previous image stays. */
  function CompleteErr(m: Model, message: Option<string>): (m': Model)
    ensures m'.appState == Error && m'.errorMsg == ErrorText(message) && m'.errorMsg != ""
    ensures m'.generatedImage == m.generatedImage && m'.selectedFile == m.selectedFile
    ensures m'.promptModifier == m.promptModifier
  {
    m.(appState := Error, errorMsg := ErrorText(message))
  }

  /** The selector's change handler: the modifier becomes the chosen value and nothing
      else changes. */
  function SetPromptModifier(m: Model, v: string): (m': Model)
    ensures m'.promptModifier == v
    ensures m'.selectedFile == m.selectedFile && m'.generatedImage == m.generatedImage
    ensures m'.appState == m.appState && m'.errorMsg == m.errorMsg
  {
    m.(promptModifier := v)
  }

  function Step(m: Model, e: Event): Model
  {
    match e
    case Select(f) => SelectImage(m, f)
    case Clear => ClearImage(m)
    case SetModifier(v) => SetPromptModifier(m, v)
    case GenerateStart => StartGenerate(m)
    case GenerateOk(url) => CompleteOk(m, url)
    case GenerateErr(message) => CompleteErr(m, message)
  }

  /** The state after applying `events` in order. */
  function Run(m: Model, events: seq<Event>): Model
    decreases |events|
  {
    if |events| == 0 then m else Run(Step(m, events[0]), events[1..])
  }

  lemma RunFirst(m: Model, events: seq<Event>)
    requires |events| > 0
    ensures Run(m, events) == Run(Step(m, events[0]), events[1..])
  {
  }

  // ---------------------------------------------------------------------------
  // Prompt

  /** The prompt handed to the client: the fixed opening, the modifier, the fixed ending. */
  function FullPrompt(modifier: string): (p: string)
    ensures |p| == |PromptPrefix| + |modifier| + |PromptSuffix|
    ensures p[..|PromptPrefix|] == PromptPrefix
    ensures p[|PromptPrefix|..|PromptPrefix| + |modifier|] == modifier
    ensures p[|PromptPrefix| + |modifier|..] == PromptSuffix
  {
    PromptPrefix + modifier + PromptSuffix
  }

  /** Recovers the modifier from a full prompt. */
  function ModifierOf(p: string): string
    requires |p| >= |PromptPrefix| + |PromptSuffix|
  {
    p[|PromptPrefix|..|p| - |PromptSuffix|]
  }

  /** The modifier can be read back from the prompt, so different modifiers give
      different prompts. */
  lemma ModifierRoundTrip(modifier: string)
    ensures ModifierOf(FullPrompt(modifier)) == modifier
  {
  }

  /** The full prompt is never empty, so the client never falls back to its own default. */
  lemma PromptOverridesDefault(modifier: string)
    ensures GeminiService.BasePrompt(Some(FullPrompt(modifier))) == FullPrompt(modifier)
    ensures FullPrompt(modifier) != GeminiService.DefaultPrompt
  {
  }

  /** The request the client would build for a start from `m`: the file's image part and
      the modifier's full prompt. */
  function GenerationRequest(m: Model, dataUrl: string): (req: Option<GeminiService.Request>)
    ensures req.Some? <==> m.selectedFile.Some?
    ensures req.Some? ==>
      && req.value.model == GeminiService.ModelId
      && |req.value.parts| == 2
      && req.value.parts[0] == GeminiService.ImagePart(dataUrl, m.selectedFile.value)
      && req.value.parts[1].text == Some(FullPrompt(m.promptModifier))
  {
    match m.selectedFile
    case None => None
    case Some(f) =>
      Some(GeminiService.BuildRequest(GeminiService.ImagePart(dataUrl, f), Some(FullPrompt(m.promptModifier))))
  }

  /** The completion event produced by the client's outcome. */
  function Completion(r: Result<string, GeminiService.GenError>): (e: Event)
    ensures r.Ok? ==> e == GenerateOk(r.value)
    ensures r.Err? ==> e == GenerateErr(GeminiService.ErrorMessage(r.error))
    ensures r.Err? ==> forall m :: Step(m, e).appState == Error && Step(m, e).errorMsg != ""
  {
    match r
    case Ok(url) => GenerateOk(url)
    case Err(e) => GenerateErr(GeminiService.ErrorMessage(e))
  }

  /** A read failure rejects with an object that has no message, so the fallback is shown;
      the two extraction errors show their own text. */
  lemma CompletionMessages(m: Model)
    ensures Step(m, Completion(Err(GeminiService.ReadError))).errorMsg == FallbackError
    ensures Step(m, Completion(Err(GeminiService.NoContentGenerated))).errorMsg
         == GeminiService.NoContentMessage
    ensures Step(m, Completion(Err(GeminiService.NoImageData))).errorMsg
         == GeminiService.NoImageMessage
    ensures forall msg :: msg != "" ==>
      Step(m, Completion(Err(GeminiService.TransportError(Some(msg))))).errorMsg == msg
  {
  }

  // ---------------------------------------------------------------------------
  // What the page shows

  /** JavaScript truthiness of an optional string. */
  predicate Truthy(s: Option<string>) { s.Some? && s.value != "" }

  /** The Generate button is enabled: a file is selected and no generation is showing as
      in progress. Pressing it then always enters PROCESSING. */
  predicate GenerateEnabled(m: Model)
    ensures GenerateEnabled(m) ==> m.selectedFile.Some? && StartGenerate(m).appState == Processing
    ensures m.appState == Processing ==> !GenerateEnabled(m)
  {
    m.selectedFile.Some? && m.appState != Processing
  }

  /** The error panel is shown: in ERROR, and never together with the result actions or
      the spinner. */
  predicate ErrorPanelShown(m: Model)
    ensures ErrorPanelShown(m) ==> !ResultActionsShown(m) && !OutputPanel(m).Spinner?
  {
    m.appState == Error
  }

  /** The Download and Regenerate buttons are shown: in SUCCESS with a non-empty image,
      which the output panel then displays and Download links to. */
  predicate ResultActionsShown(m: Model)
    ensures ResultActionsShown(m) ==>
      m.generatedImage.Some? && OutputPanel(m) == ShowImage(m.generatedImage.value)
    ensures ResultActionsShown(m) ==> Download(m).Some?
  {
    m.appState == Success && Truthy(m.generatedImage)
  }

  /** The right-hand panel: spinner, generated image, or placeholder. */
  datatype Output = Spinner | ShowImage(url: string) | Placeholder

  function OutputPanel(m: Model): (o: Output)
    ensures o.Spinner? <==> m.appState == Processing
    ensures o.ShowImage? <==> m.appState != Processing && Truthy(m.generatedImage)
    ensures o.ShowImage? ==> o.url == m.generatedImage.value
  {
    if m.appState == Processing then Spinner
    else if Truthy(m.generatedImage) then ShowImage(m.generatedImage.value)
    else Placeholder
  }

  /** The link a download click creates and clicks. */
  datatype DownloadLink = DownloadLink(href: string, filename: string)

  /** `handleDownload`: a link to the generated image, or nothing when there is none. */
  function Download(m: Model): (link: Option<DownloadLink>)
    ensures link.Some? <==> Truthy(m.generatedImage)
    ensures link.Some? ==> link.value.href == m.generatedImage.value && link.value.filename == DownloadName
  {
    if Truthy(m.generatedImage) then Some(DownloadLink(m.generatedImage.value, DownloadName)) else None
  }

  /** Whenever the result actions are shown, Download does produce a link. */
  lemma ShownDownloadWorks(m: Model)
    requires ResultActionsShown(m)
    ensures Download(m) == Some(DownloadLink(m.generatedImage.value, DownloadName))
  {
  }

  // ---------------------------------------------------------------------------
  // Invariants over every event sequence

  /** What holds in every reachable state, whatever the interleaving of completions. */
  predicate Inv(m: Model)
  {
    && m.appState != Uploading
    && (m.appState == Success ==> m.generatedImage.Some?)
    && (m.appState == Error ==> m.errorMsg != "")
    && (m.errorMsg != "" ==> m.appState == Error || m.appState == Success)
    && (m.appState == Processing ==> m.selectedFile.Some? && m.errorMsg == "")
  }

  lemma InitInv()
    ensures Inv(Init())
  {
  }

  lemma StepInv(m: Model, e: Event)
    requires Inv(m)
    ensures Inv(Step(m, e))
  {
  }

  lemma {:induction false} RunInv(m: Model, events: seq<Event>)
    requires Inv(m)
    ensures Inv(Run(m, events))
    decreases |events|
  {
    if |events| > 0 {
      StepInv(m, events[0]);
      RunInv(Step(m, events[0]), events[1..]);
    }
  }

  /** Every state reached from the initial one by any event sequence satisfies `Inv`:
      UPLOADING never occurs, SUCCESS carries an image, ERROR carries a message, a message
      is only present in ERROR or SUCCESS, and PROCESSING has a file and no message. */
  lemma {:induction false} Reachable(events: seq<Event>)
    ensures Inv(Run(Init(), events))
  {
    InitInv();
    RunInv(Init(), events);
  }

  /** In a reachable state the Generate button is enabled exactly when pressing it would
      change the application record: while PROCESSING a start leaves the record as it is.
      Such a start still starts another generation call (counted by `Session.Press`), so
      this is not a promise that only one call is ever in flight; `Session.TwoInFlight`
      shows two. */
  lemma GenerateEnabledIffEffective(m: Model)
    requires Inv(m)
    ensures GenerateEnabled(m) <==> Step(m, GenerateStart) != m
  {
  }

  /** The Clear button stays available throughout PROCESSING, so a completion can arrive
      after a clear. */
  lemma ClearOfferedWhileProcessing(m: Model, dragActive: bool)
    requires Inv(m) && m.appState == Processing
    ensures ImageUploader.OffersClear(ImageUploader.Render(m.selectedFile, dragActive))
  {
  }

  /** The error panel never shows an empty message. */
  lemma ErrorPanelHasText(m: Model)
    requires Inv(m) && ErrorPanelShown(m)
    ensures m.errorMsg != ""
  {
  }

  /** When every success carries a URL produced by the client, SUCCESS always shows the
      Download and Regenerate buttons. */
  predicate ClientUrls(events: seq<Event>)
  {
    forall k :: 0 <= k < |events| && events[k].GenerateOk? ==>
      GeminiService.PngPrefix <= events[k].url
  }

  predicate ImageIsClientUrl(m: Model)
  {
    m.generatedImage.Some? ==> GeminiService.PngPrefix <= m.generatedImage.value
  }

  lemma {:induction false} RunKeepsClientImage(m: Model, events: seq<Event>)
    requires Inv(m) && ImageIsClientUrl(m) && ClientUrls(events)
    ensures ImageIsClientUrl(Run(m, events))
    decreases |events|
  {
    if |events| > 0 {
      StepInv(m, events[0]);
      assert ClientUrls(events[1..]) by {
        forall k | 0 <= k < |events[1..]| && events[1..][k].GenerateOk?
          ensures GeminiService.PngPrefix <= events[1..][k].url
        {
          assert events[1..][k] == events[k + 1];
        }
      }
      RunKeepsClientImage(Step(m, events[0]), events[1..]);
    }
  }

  lemma SuccessShowsActions(events: seq<Event>)
    requires ClientUrls(events)
    ensures var m := Run(Init(), events);
      m.appState == Success ==> ResultActionsShown(m)
  {
    InitInv();
    RunInv(Init(), events);
    RunKeepsClientImage(Init(), events);
  }

  // ---------------------------------------------------------------------------
  // What does not survive interleaving

  /** A start, a clear and a late success: SUCCESS with no file selected. Regenerate is
      then shown but does nothing. */
  lemma LateSuccessAfterClear(f: File, url: string)
    requires url != ""
    ensures var m := Run(Init(), [Select(f), GenerateStart, Clear, GenerateOk(url)]);
      && m.appState == Success && m.selectedFile.None?
      && ResultActionsShown(m)
      && Step(m, GenerateStart) == m
  {
    var evs := [Select(f), GenerateStart, Clear, GenerateOk(url)];
    var m1 := Step(Init(), evs[0]);
    var m2 := Step(m1, evs[1]);
    var m3 := Step(m2, evs[2]);
    var m4 := Step(m3, evs[3]);
    RunFirst(Init(), evs);
    RunFirst(m1, evs[1..]);
    RunFirst(m2, evs[2..]);
    RunFirst(m3, evs[3..]);
    assert Run(Init(), evs) == m4;
  }

  /** A late success after a newer generation call failed: SUCCESS with a non-empty error text,
      so "message present exactly in ERROR" is not an invariant. The image shown belongs
      to the first file while the second is selected. */
  lemma LateSuccessKeepsError(f: File, g: File, url: string, msg: string)
    requires msg != ""
    ensures var m := Run(Init(), [Select(f), GenerateStart, Clear, Select(g), GenerateStart,
                                  GenerateErr(Some(msg)), GenerateOk(url)]);
      && m.appState == Success && m.errorMsg == msg
      && m.selectedFile == Some(g) && m.generatedImage == Some(url)
  {
    var evs := [Select(f), GenerateStart, Clear, Select(g), GenerateStart,
                GenerateErr(Some(msg)), GenerateOk(url)];
    var m1 := Step(Init(), evs[0]);
    var m2 := Step(m1, evs[1]);
    var m3 := Step(m2, evs[2]);
    var m4 := Step(m3, evs[3]);
    var m5 := Step(m4, evs[4]);
    var m6 := Step(m5, evs[5]);
    var m7 := Step(m6, evs[6]);
    RunFirst(Init(), evs);
    RunFirst(m1, evs[1..]);
    RunFirst(m2, evs[2..]);
    RunFirst(m3, evs[3..]);
    RunFirst(m4, evs[4..]);
    RunFirst(m5, evs[5..]);
    RunFirst(m6, evs[6..]);
    assert Run(Init(), evs) == m7;
  }

  // ---------------------------------------------------------------------------
  // End-to-end scenarios with the client

  /** One candidate, one inline part carrying "Zm9v": the image becomes
      `data:image/png;base64,Zm9v` and the state SUCCESS. */
  lemma SingleImageScenario(m: Model, mime: string)
    ensures var resp := GeminiService.Response(Some([GeminiService.Candidate(Some(
              GeminiService.Content(Some([GeminiService.Part(None, Some(GeminiService.Blob(Some("Zm9v"), mime)))]))))]));
      var m' := Step(StartGenerate(m), Completion(GeminiService.ExtractImage(resp)));
      m'.appState == Success && m'.generatedImage == Some("data:image/png;base64,Zm9v")
  {
    var blob := GeminiService.Blob(Some("Zm9v"), mime);
    var parts := [GeminiService.Part(None, Some(blob))];
    var resp := GeminiService.Response(Some([GeminiService.Candidate(Some(GeminiService.Content(Some(parts))))]));
    assert GeminiService.FirstParts(resp) == Some(parts);
    assert GeminiService.FirstInline(parts) == Some(0);
    assert GeminiService.PngDataUrl(blob) == "data:image/png;base64,Zm9v";
  }

  /** One candidate with an empty parts list: ERROR with the "no image data" text, not
      the "no content" one. */
  lemma EmptyPartsScenario(m: Model)
    ensures var resp := GeminiService.Response(Some([GeminiService.Candidate(Some(
              GeminiService.Content(Some([]))))]));
      var m' := Step(StartGenerate(m), Completion(GeminiService.ExtractImage(resp)));
      m'.appState == Error && m'.errorMsg == GeminiService.NoImageMessage
  {
  }
}

=== FILE: gemini_service.dfy ===
/** The generation client: shaping the two-part request sent to the image model and
    recovering the generated image from the variably shaped response.
    The browser's data-URL reader and the network call are inputs: the reader's outcome
    is a `ReadOutcome`, and the service is a function from requests to `ApiOutcome`s. */
module GeminiService {
  import opened Wrappers
  import opened Types

  /** The model identifier every request targets. */
  const ModelId: string := "gemini-2.5-flash-image"

  /** The instruction used when the caller supplies no prompt, or an empty one. */
  const DefaultPrompt: string :=
    "Change the background to the historic Millionka district in Vladivostok. Old red brick buildings, narrow alleyways, historic 19th-century architecture, atmospheric lighting, cobblestone streets. Keep the person in the foreground exactly as is, realistic style."

  /** Every image handed back is labelled PNG, whatever the service declared. */
  const PngPrefix: string := "data:image/png;base64,"

  const NoContentMessage: string := "No content generated"
  const NoImageMessage: string := "No image data found in response"

  // ---------------------------------------------------------------------------
  // Strings: JavaScript's `split` on a one-character separator

  /** Position of the first occurrence of `c` in `s`, if any. */
  function IndexOf(s: string, c: char): (r: Option<nat>)
    ensures r.None? <==> c !in s
    ensures r.Some? ==> r.value < |s| && s[r.value] == c && c !in s[..r.value]
  {
    if |s| == 0 then None
    else if s[0] == c then Some(0)
    else
      match IndexOf(s[1..], c)
      case None => None
      case Some(i) =>
        assert s[..i + 1] == [s[0]] + s[1..][..i];
        Some(i + 1)
  }

  /** `s.split(sep)`: the maximal separator-free segments of `s`, in order.
      Like JavaScript, an empty string splits into one empty segment. */
  function Split(s: string, sep: char): (parts: seq<string>)
    ensures |parts| >= 1
    ensures forall k :: 0 <= k < |parts| ==> sep !in parts[k]
    ensures parts[0] <= s && (|parts[0]| == |s| || s[|parts[0]|] == sep)
    decreases |s|
  {
    match IndexOf(s, sep)
    case None => [s]
    case Some(i) => [s[..i]] + Split(s[i + 1..], sep)
  }

  /** `parts.join(sep)`. */
  function Join(parts: seq<string>, sep: char): string
  {
    if |parts| == 0 then ""
    else if |parts| == 1 then parts[0]
    else parts[0] + [sep] + Join(parts[1..], sep)
  }

  /** Joining the segments back with the separator restores the string. */
  lemma {:induction false} JoinSplit(s: string, sep: char)
    ensures Join(Split(s, sep), sep) == s
    decreases |s|
  {
    match IndexOf(s, sep)
    case None =>
    case Some(i) =>
      var rest := Split(s[i + 1..], sep);
      JoinSplit(s[i + 1..], sep);
      assert Split(s, sep) == [s[..i]] + rest;
      assert ([s[..i]] + rest)[1..] == rest;
      assert s == s[..i] + [sep] + s[i + 1..];
  }

  /** The first separator of `a + [sep] + b` is the one after `a` when `a` has none. */
  lemma IndexOfAfter(a: string, sep: char, b: string)
    requires sep !in a
    ensures IndexOf(a + [sep] + b, sep) == Some(|a|)
  {
    var s := a + [sep] + b;
    assert s[|a|] == sep;
    assert s[..|a|] == a;
  }

  /** Splitting a join of separator-free segments gives the segments back. */
  lemma {:induction false} SplitJoin(parts: seq<string>, sep: char)
    requires |parts| >= 1
    requires forall k :: 0 <= k < |parts| ==> sep !in parts[k]
    ensures Split(Join(parts, sep), sep) == parts
    decreases |parts|
  {
    if |parts| == 1 {
      assert Join(parts, sep) == parts[0];
      assert IndexOf(parts[0], sep).None?;
    } else {
      var head, rest := parts[0], parts[1..];
      var tail := Join(rest, sep);
      var s := head + [sep] + tail;
      assert Join(parts, sep) == s;
      assert sep !in head;
      IndexOfAfter(head, sep, tail);
      assert s[..|head|] == head;
      assert s[|head| + 1..] == tail;
      assert Split(s, sep) == [head] + Split(tail, sep);
      SplitJoin(rest, sep);
      assert parts == [head] + rest;
    }
  }

  // ---------------------------------------------------------------------------
  // Image encoding: the payload of a data URL

  /** `dataUrl.split(',')[1]`: the text after the first comma, up to the next one.
      `None` is JavaScript's `undefined`, which is what a comma-free string yields. */
  function PayloadOf(dataUrl: string): (r: Option<string>)
    ensures r.None? <==> ',' !in dataUrl
    ensures r.Some? ==> ',' !in r.value
    ensures r.Some? ==>
      var i := IndexOf(dataUrl, ',').value;
      r.value <= dataUrl[i + 1..] &&
      (i + 1 + |r.value| == |dataUrl| || dataUrl[i + 1 + |r.value|] == ',')
  {
    var segments := Split(dataUrl, ',');
    if |segments| >= 2 then Some(segments[1]) else None
  }

  /** For the data URL shape of section 3 of RFC 2397, `data:<mediatype>;base64,<data>`,
      the payload is exactly `<data>` when neither part contains a comma. */
  lemma DataUrlPayload(mediaType: string, data: string)
    requires ',' !in mediaType && ',' !in data
    ensures PayloadOf("data:" + mediaType + ";base64," + data) == Some(data)
  {
    var head := "data:" + mediaType + ";base64";
    var url := "data:" + mediaType + ";base64," + data;
    assert url == head + [','] + data;
    assert ',' !in head by {
      assert head == "data:" + mediaType + ";base64";
      forall k | 0 <= k < |head| ensures head[k] != ',' {
        if k >= 5 && k < 5 + |mediaType| {
          assert head[k] == mediaType[k - 5];
        }
      }
    }
    IndexOfAfter(head, ',', data);
    assert url[|head| + 1..] == data;
    assert IndexOf(data, ',').None?;
    assert Split(data, ',') == [data];
    assert Split(url, ',') == [url[..|head|]] + Split(data, ',');
  }

  // ---------------------------------------------------------------------------
  // Request and response shapes

  /** Inline binary data; `data` is absent when the encoder produced `undefined`. */
  datatype Blob = Blob(data: Option<string>, mimeType: string)

  /** A content part: text, inline data, or (in responses) either or both. */
  datatype Part = Part(text: Option<string>, inlineData: Option<Blob>)

  datatype Content = Content(parts: Option<seq<Part>>)
  datatype Candidate = Candidate(content: Option<Content>)
  datatype Response = Response(candidates: Option<seq<Candidate>>)

  datatype Request = Request(model: string, parts: seq<Part>)

  /** What the browser's file reader delivers: a data URL, or a rejection carrying a
      progress event (an object without a `message`). */
  datatype ReadOutcome = Loaded(dataUrl: string) | ReadFailed

  /** What the service call delivers: a response, or a rejection with an optional message. */
  datatype ApiOutcome = Responded(response: Response) | TransportFailed(message: Option<string>)

  /** The ways generation rejects; each one is passed on unchanged to the caller. */
  datatype GenError =
    | ReadError
    | TransportError(message: Option<string>)
    | NoContentGenerated
    | NoImageData

  /** The `message` property of the rejection value. */
  function ErrorMessage(e: GenError): (m: Option<string>)
    ensures e.ReadError? <==> m.None? && !e.TransportError?
    ensures e.NoContentGenerated? ==> m == Some(NoContentMessage)
    ensures e.NoImageData? ==> m == Some(NoImageMessage)
    ensures e.TransportError? ==> m == e.message
  {
    match e
    case ReadError => None
    case TransportError(message) => message
    case NoContentGenerated => Some(NoContentMessage)
    case NoImageData => Some(NoImageMessage)
  }

  /** The image part built from the reader's data URL and the file's declared type. */
  function ImagePart(dataUrl: string, file: File): (p: Part)
    ensures p.text.None? && p.inlineData.Some?
    ensures p.inlineData.value.mimeType == file.mimeType
    ensures p.inlineData.value.data == PayloadOf(dataUrl)
    ensures p.inlineData.value.data.None? <==> ',' !in dataUrl
  {
    Part(None, Some(Blob(PayloadOf(dataUrl), file.mimeType)))
  }

  /** The MIME type sent is the file's own, never the one written in the data URL. */
  lemma ImagePartFromDataUrl(mediaType: string, data: string, file: File)
    requires ',' !in mediaType && ',' !in data
    ensures ImagePart("data:" + mediaType + ";base64," + data, file)
         == Part(None, Some(Blob(Some(data), file.mimeType)))
  {
    DataUrlPayload(mediaType, data);
  }

  /** `customPrompt || DefaultPrompt`: an absent or empty prompt falls back to the default. */
  function BasePrompt(customPrompt: Option<string>): (p: string)
    ensures p != ""
    ensures customPrompt.Some? && customPrompt.value != "" ==> p == customPrompt.value
    ensures customPrompt.None? || customPrompt.value == "" ==> p == DefaultPrompt
  {
    if customPrompt.Some? && customPrompt.value != "" then customPrompt.value else DefaultPrompt
  }

  /** The request: the image part first, the instruction text second, for the fixed model. */
  function BuildRequest(imagePart: Part, customPrompt: Option<string>): (req: Request)
    ensures req.model == ModelId
    ensures |req.parts| == 2
    ensures req.parts[0] == imagePart
    ensures req.parts[1].text == Some(BasePrompt(customPrompt)) && req.parts[1].inlineData.None?
  {
    Request(ModelId, [imagePart, Part(Some(BasePrompt(customPrompt)), None)])
  }

  /** In a request built from a data URL, the only part carrying inline data is the
      first, and the only part carrying text is the second. */
  lemma RequestPartsOrdered(dataUrl: string, file: File, customPrompt: Option<string>)
    ensures var req := BuildRequest(ImagePart(dataUrl, file), customPrompt);
      forall k :: 0 <= k < |req.parts| ==>
        (req.parts[k].inlineData.Some? <==> k == 0) && (req.parts[k].text.Some? <==> k == 1)
  {
  }

  // ---------------------------------------------------------------------------
  // Response extraction

  /** `response.candidates?.[0]?.content?.parts`: only the first candidate is looked at. */
  function FirstParts(resp: Response): (r: Option<seq<Part>>)
    ensures r.Some? <==>
      && resp.candidates.Some?
      && |resp.candidates.value| > 0
      && resp.candidates.value[0].content.Some?
      && resp.candidates.value[0].content.value.parts.Some?
    ensures r.Some? ==> r.value == resp.candidates.value[0].content.value.parts.value
  {
    match resp.candidates
    case None => None
    case Some(cs) =>
      if |cs| == 0 then None
      else
        match cs[0].content
        case None => None
        case Some(c) => c.parts
  }

  /** JavaScript template interpolation of a possibly `undefined` string. */
  function JsText(s: Option<string>): (t: string)
    ensures s.Some? ==> t == s.value
    ensures s.None? ==> t == "undefined"
  {
    s.GetOr("undefined")
  }

  /** The data URL returned for an inline-data blob: always labelled PNG. A blob without
      `data` is interpolated as the text "undefined". */
  function PngDataUrl(b: Blob): (url: string)
    ensures PngPrefix <= url
    ensures b.data.Some? ==> url[|PngPrefix|..] == b.data.value
    ensures b.data.None? ==> url == PngPrefix + "undefined"
  {
    PngPrefix + JsText(b.data)
  }

  /** Index of the first part carrying inline data, the reference for the scan. */
  function FirstInline(parts: seq<Part>): (r: Option<nat>)
    ensures r.None? <==> forall k :: 0 <= k < |parts| ==> parts[k].inlineData.None?
    ensures r.Some? ==> r.value < |parts| && parts[r.value].inlineData.Some?
    ensures r.Some? ==> forall k :: 0 <= k < r.value ==> parts[k].inlineData.None?
  {
    if |parts| == 0 then None
    else if parts[0].inlineData.Some? then Some(0)
    else
      match FirstInline(parts[1..])
      case None => None
      case Some(i) => Some(i + 1)
  }

  /** The `for (const part of parts)` loop: the first part with inline data wins. */
  method ScanParts(parts: seq<Part>) returns (r: Option<string>)
    ensures r.None? <==> forall k :: 0 <= k < |parts| ==> parts[k].inlineData.None?
    ensures r.Some? ==>
      exists k :: 0 <= k < |parts| && parts[k].inlineData.Some? &&
        r.value == PngDataUrl(parts[k].inlineData.value) &&
        (forall j :: 0 <= j < k ==> parts[j].inlineData.None?)
    ensures FirstInline(parts).None? ==> r.None?
    ensures FirstInline(parts).Some? ==>
      r == Some(PngDataUrl(parts[FirstInline(parts).value].inlineData.value))
  {
    var i := 0;
    while i < |parts|
      invariant 0 <= i <= |parts|
      invariant forall j :: 0 <= j < i ==> parts[j].inlineData.None?
    {
      if parts[i].inlineData.Some? {
        return Some(PngDataUrl(parts[i].inlineData.value));
      }
      i := i + 1;
    }
    return None;
  }

  /** The extraction step of generation: a PNG data URL for the first inline-data part of
      the first candidate, or one of the two extraction errors. */
  function ExtractImage(resp: Response): (r: Result<string, GenError>)
    ensures r == Err(NoContentGenerated) <==> FirstParts(resp).None?
    ensures r == Err(NoImageData) <==>
      FirstParts(resp).Some? && forall k :: 0 <= k < |FirstParts(resp).value| ==>
        FirstParts(resp).value[k].inlineData.None?
    ensures FirstParts(resp) == Some([]) ==> r == Err(NoImageData)
    ensures r.Err? ==> r.error.NoContentGenerated? || r.error.NoImageData?
    ensures r.Ok? ==>
      var parts := FirstParts(resp).value;
      var k := FirstInline(parts).value;
      r.value == PngDataUrl(parts[k].inlineData.value)
  {
    match FirstParts(resp)
    case None => Err(NoContentGenerated)
    case Some(parts) =>
      match FirstInline(parts)
      case None => Err(NoImageData)
      case Some(k) => Ok(PngDataUrl(parts[k].inlineData.value))
  }

  /** Text parts never become the result: a response whose parts carry only text fails. */
  lemma TextOnlyFails(resp: Response)
    requires FirstParts(resp).Some?
    requires forall k :: 0 <= k < |FirstParts(resp).value| ==>
      FirstParts(resp).value[k].inlineData.None?
    ensures ExtractImage(resp) == Err(NoImageData)
  {
  }

  /** Parts after the first inline-data part, and other candidates, do not affect the result. */
  lemma LaterPartsIgnored(prefix: seq<Part>, hit: Part, later1: seq<Part>, later2: seq<Part>,
                          others1: seq<Candidate>, others2: seq<Candidate>)
    requires forall k :: 0 <= k < |prefix| ==> prefix[k].inlineData.None?
    requires hit.inlineData.Some?
    ensures
      var r1 := Response(Some([Candidate(Some(Content(Some(prefix + [hit] + later1))))] + others1));
      var r2 := Response(Some([Candidate(Some(Content(Some(prefix + [hit] + later2))))] + others2));
      ExtractImage(r1) == ExtractImage(r2) == Ok(PngDataUrl(hit.inlineData.value))
  {
    var p1 := prefix + [hit] + later1;
    var p2 := prefix + [hit] + later2;
    assert p1[|prefix|] == hit && p2[|prefix|] == hit;
    assert FirstInline(p1) == Some(|prefix|);
    assert FirstInline(p2) == Some(|prefix|);
  }

  /** The whole client: read the file, send the two-part request, extract the image.
      Every failure is rejected with the original error. */
  function Generate(read: ReadOutcome, file: File, customPrompt: Option<string>,
                    service: Request -> ApiOutcome): (r: Result<string, GenError>)
    ensures read.ReadFailed? ==> r == Err(ReadError)
    ensures r.Ok? ==> PngPrefix <= r.value
    ensures read.Loaded? ==>
      var answer := service(BuildRequest(ImagePart(read.dataUrl, file), customPrompt));
      (answer.TransportFailed? ==> r == Err(TransportError(answer.message))) &&
      (answer.Responded? ==> r == ExtractImage(answer.response))
  {
    match read
    case ReadFailed => Err(ReadError)
    case Loaded(dataUrl) =>
      match service(BuildRequest(ImagePart(dataUrl, file), customPrompt))
      case TransportFailed(message) => Err(TransportError(message))
      case Responded(resp) => ExtractImage(resp)
  }
}

=== FILE: image_uploader.dfy ===
/** The uploader's event rules: how drag events move the highlight flag, which file a drop
    or a file-input change forwards to the application, and which of the two views
    (preview or drop zone) is shown. Rendering itself is not modelled. */
module ImageUploader {
  import opened Wrappers
  import opened Types

  /** `files && files[0]`: the first file of a possibly absent, possibly empty list. */
  function FirstFile(files: Option<seq<File>>): (r: Option<File>)
    ensures r.Some? <==> files.Some? && |files.value| > 0
    ensures r.Some? ==> r.value == files.value[0]
  {
    if files.Some? && |files.value| > 0 then Some(files.value[0]) else None
  }

  /** The calls made to `onImageSelect`, in order: at most the first file. */
  function Forwarded(files: Option<seq<File>>): (calls: seq<File>)
    ensures |calls| <= 1
    ensures |calls| == 1 <==> files.Some? && |files.value| > 0
    ensures |calls| == 1 ==> calls[0] == files.value[0]
  {
    match FirstFile(files)
    case None => []
    case Some(f) => [f]
  }

  /** The drag-event handler: the event's `type` string decides the new highlight flag. */
  function HandleDrag(dragActive: bool, eventType: string): (active: bool)
    ensures eventType == "dragenter" || eventType == "dragover" ==> active
    ensures eventType == "dragleave" ==> !active
    ensures eventType != "dragenter" && eventType != "dragover" && eventType != "dragleave"
            ==> active == dragActive
  {
    if eventType == "dragenter" || eventType == "dragover" then true
    else if eventType == "dragleave" then false
    else dragActive
  }

  /** The highlight flag after a sequence of drag events, one after the other. */
  function DragAll(dragActive: bool, eventTypes: seq<string>): bool
    decreases |eventTypes|
  {
    if |eventTypes| == 0 then dragActive
    else DragAll(HandleDrag(dragActive, eventTypes[0]), eventTypes[1..])
  }

  /** The reference: the flag is decided by the last `dragenter`, `dragover` or `dragleave`
      in the sequence; other event types are transparent. `None` when there is none. */
  function LastDragDecision(eventTypes: seq<string>): Option<bool>
    decreases |eventTypes|
  {
    if |eventTypes| == 0 then None
    else
      var t := eventTypes[|eventTypes| - 1];
      if t == "dragenter" || t == "dragover" then Some(true)
      else if t == "dragleave" then Some(false)
      else LastDragDecision(eventTypes[..|eventTypes| - 1])
  }

  lemma {:induction false} DragAllSnoc(dragActive: bool, eventTypes: seq<string>, t: string)
    ensures DragAll(dragActive, eventTypes + [t]) == HandleDrag(DragAll(dragActive, eventTypes), t)
    decreases |eventTypes|
  {
    if |eventTypes| == 0 {
      assert eventTypes + [t] == [t];
      assert [t][1..] == [];
    } else {
      assert (eventTypes + [t])[0] == eventTypes[0];
      assert (eventTypes + [t])[1..] == eventTypes[1..] + [t];
      DragAllSnoc(HandleDrag(dragActive, eventTypes[0]), eventTypes[1..], t);
    }
  }

  /** Running the handler over any sequence of drag events leaves the flag the last
      deciding event set, or the initial flag when no event decides. */
  lemma {:induction false} DragAllIsLastDecision(dragActive: bool, eventTypes: seq<string>)
    ensures DragAll(dragActive, eventTypes) == LastDragDecision(eventTypes).GetOr(dragActive)
    decreases |eventTypes|
  {
    if |eventTypes| > 0 {
      var init := eventTypes[..|eventTypes| - 1];
      var t := eventTypes[|eventTypes| - 1];
      assert eventTypes == init + [t];
      DragAllSnoc(dragActive, init, t);
      DragAllIsLastDecision(dragActive, init);
    }
  }

  /** What a drop or change handler leaves behind: the new highlight flag and the files
      passed to `onImageSelect`, one entry per call. */
  datatype Handled = Handled(dragActive: bool, selected: seq<File>)

  /** A drop always clears the highlight and forwards the first dropped file, if any. */
  function HandleDrop(dragActive: bool, files: Option<seq<File>>): (h: Handled)
    ensures !h.dragActive
    ensures h.selected == Forwarded(files)
  {
    Handled(false, Forwarded(files))
  }

  /** A change of the hidden file input forwards the first chosen file and leaves the
      highlight untouched. */
  function HandleChange(dragActive: bool, files: Option<seq<File>>): (h: Handled)
    ensures h.dragActive == dragActive
    ensures h.selected == Forwarded(files)
  {
    Handled(dragActive, Forwarded(files))
  }

  /** A drop or change over a non-empty list selects exactly its first file, once;
      over an absent or empty list it selects nothing. */
  lemma DropSelectsFirstOnly(dragActive: bool, files: seq<File>)
    ensures |files| > 0 ==>
      HandleDrop(dragActive, Some(files)).selected == [files[0]] &&
      HandleChange(dragActive, Some(files)).selected == [files[0]]
    ensures |files| == 0 ==>
      HandleDrop(dragActive, Some(files)).selected == [] &&
      HandleChange(dragActive, Some(files)).selected == []
    ensures HandleDrop(dragActive, None).selected == [] && HandleChange(dragActive, None).selected == []
  {
  }

  /** The two faces of the uploader. */
  datatype View =
    | Preview(image: File)          // the selected image with its Clear button
    | DropZone(highlighted: bool)   // the drop area with the hidden file input

  /** The Clear button exists exactly in preview. */
  predicate OffersClear(v: View) { v.Preview? }

  /** The file input and the drag-and-drop handlers exist exactly in the drop zone. */
  predicate AcceptsFiles(v: View) { v.DropZone? }

  /** The view chosen from the selected image and the highlight flag. The application
      phase is not an input: nothing about processing hides the Clear button. */
  function Render(selectedImage: Option<File>, dragActive: bool): (v: View)
    ensures OffersClear(v) <==> selectedImage.Some?
    ensures AcceptsFiles(v) <==> selectedImage.None?
    ensures v.Preview? ==> v.image == selectedImage.value
    ensures v.DropZone? ==> v.highlighted == dragActive
  {
    match selectedImage
    case Some(f) => Preview(f)
    case None => DropZone(dragActive)
  }
}

=== FILE: session.dfy ===
/** The page as the user can actually drive it: actions are only those the rendered page
    offers (enabled buttons, the uploader's drop zone, the selector's options), and every
    started generation call is counted until it resolves or rejects. This shows which
    interleavings the page's own guards admit, and that they do not keep calls from
    overlapping. */
module Session {
  import opened Wrappers
  import opened Types
  import App
  import ImageUploader

  /** The application state, the uploader's highlight flag and the number of generation
      started whose completion has not arrived yet. */
  datatype Session = Session(app: App.Model, dragActive: bool, inFlight: nat)

  datatype Action =
    | Drag(eventType: string)
    | DropFiles(files: Option<seq<File>>)
    | ChangeInput(files: Option<seq<File>>)
    | PressClear
    | ChooseModifier(value: string)
    | PressGenerate
    | PressRegenerate
    | Resolve(url: string)
    | Reject(message: Option<string>)

  /** The page as first rendered: the application's initial state, no highlight and no
      generation call outstanding. */
  function Init(): (r: Session)
    ensures r.app == App.Init() && !r.dragActive && r.inFlight == 0
    ensures Inv(r)
  {
    Session(App.Init(), false, 0)
  }

  /** The uploader view the page currently shows. */
  function UploaderView(s: Session): ImageUploader.View
  {
    ImageUploader.Render(s.app.selectedFile, s.dragActive)
  }

  /** The action is offered by the page in this state: uploader input only in the drop
      zone, Clear only in preview, starts only through an enabled button, completions only
      for outstanding generation calls. */
  predicate Allowed(s: Session, a: Action)
    ensures Allowed(s, a) && (a.Drag? || a.DropFiles? || a.ChangeInput?) ==> s.app.selectedFile.None?
    ensures Allowed(s, a) && a.PressClear? ==> s.app.selectedFile.Some?
    ensures Allowed(s, a) && (a.PressGenerate? || a.PressRegenerate?) ==> s.app.appState != Processing
    ensures Allowed(s, a) && (a.Resolve? || a.Reject?) ==> s.inFlight > 0
  {
    match a
    case Drag(_) => ImageUploader.AcceptsFiles(UploaderView(s))
    case DropFiles(_) => ImageUploader.AcceptsFiles(UploaderView(s))
    case ChangeInput(_) => ImageUploader.AcceptsFiles(UploaderView(s))
    case PressClear => ImageUploader.OffersClear(UploaderView(s))
    case ChooseModifier(v) => v in App.ModifierOptions
    case PressGenerate => App.GenerateEnabled(s.app)
    case PressRegenerate => App.ResultActionsShown(s.app)
    case Resolve(_) => s.inFlight > 0
    case Reject(_) => s.inFlight > 0
  }

  /** Application events for the files an uploader handler forwarded. */
  function Selections(files: seq<File>): (events: seq<App.Event>)
    ensures |events| == |files|
    ensures forall k :: 0 <= k < |files| ==> events[k] == App.Select(files[k])
  {
    if |files| == 0 then [] else [App.Select(files[0])] + Selections(files[1..])
  }

  /** A press starts a generation call exactly when a file is selected (the check at the
      head of `handleGenerate`). The call is counted in `inFlight` until it resolves or
      rejects; a call whose file read fails is counted too, although it never reaches
      the service. */
  function Press(s: Session): (s': Session)
    ensures s'.app == App.StartGenerate(s.app) && s'.dragActive == s.dragActive
    ensures s'.inFlight == s.inFlight + (if s.app.selectedFile.Some? then 1 else 0)
  {
    var started := if s.app.selectedFile.Some? then 1 else 0;
    Session(App.Step(s.app, App.GenerateStart), s.dragActive, s.inFlight + started)
  }

  /** Applying the selections an uploader handler produced: none, or the one file. */
  lemma RunSelections(m: App.Model, files: seq<File>)
    requires |files| <= 1
    ensures App.Run(m, Selections(files)) == if |files| == 0 then m else App.SelectImage(m, files[0])
  {
    if |files| == 1 {
      assert Selections(files) == [App.Select(files[0])];
      App.RunFirst(m, Selections(files));
    }
  }

  /** Each control the page offers runs its handler; only completions lower the count of
      outstanding calls, and only starts raise it. */
  function Apply(s: Session, a: Action): (s': Session)
    requires Allowed(s, a)
    ensures (a.Resolve? || a.Reject?) ==> s'.inFlight == s.inFlight - 1
    ensures !(a.Resolve? || a.Reject? || a.PressGenerate? || a.PressRegenerate?) ==>
      s'.inFlight == s.inFlight
    ensures a.Drag? ==>
      s'.app == s.app && s'.dragActive == ImageUploader.HandleDrag(s.dragActive, a.eventType)
    ensures a.DropFiles? ==> !s'.dragActive
    ensures a.ChangeInput? ==> s'.dragActive == s.dragActive
    ensures (a.DropFiles? || a.ChangeInput?) && ImageUploader.FirstFile(a.files).None? ==>
      s'.app == s.app
    ensures (a.DropFiles? || a.ChangeInput?) && ImageUploader.FirstFile(a.files).Some? ==>
      s'.app == App.SelectImage(s.app, ImageUploader.FirstFile(a.files).value)
    ensures a.PressClear? ==> s'.app == App.ClearImage(s.app)
    ensures a.ChooseModifier? ==> s'.app == App.SetPromptModifier(s.app, a.value)
    ensures a.PressGenerate? || a.PressRegenerate? ==> s'.app == App.StartGenerate(s.app)
    ensures a.Resolve? ==> s'.app == App.CompleteOk(s.app, a.url)
    ensures a.Reject? ==> s'.app == App.CompleteErr(s.app, a.message)
  {
    match a
    case Drag(t) => s.(dragActive := ImageUploader.HandleDrag(s.dragActive, t))
    case DropFiles(files) =>
      var h := ImageUploader.HandleDrop(s.dragActive, files);
      RunSelections(s.app, h.selected);
      Session(App.Run(s.app, Selections(h.selected)), h.dragActive, s.inFlight)
    case ChangeInput(files) =>
      var h := ImageUploader.HandleChange(s.dragActive, files);
      RunSelections(s.app, h.selected);
      Session(App.Run(s.app, Selections(h.selected)), h.dragActive, s.inFlight)
    case PressClear => s.(app := App.Step(s.app, App.Clear))
    case ChooseModifier(v) => s.(app := App.Step(s.app, App.SetModifier(v)))
    case PressGenerate => Press(s)
    case PressRegenerate => Press(s)
    case Resolve(url) => Session(App.Step(s.app, App.GenerateOk(url)), s.dragActive, s.inFlight - 1)
    case Reject(message) => Session(App.Step(s.app, App.GenerateErr(message)), s.dragActive, s.inFlight - 1)
  }

  /** The session after `actions`, or `None` if one of them is not offered when it comes. */
  function RunActions(s: Session, actions: seq<Action>): Option<Session>
    decreases |actions|
  {
    if |actions| == 0 then Some(s)
    else if !Allowed(s, actions[0]) then None
    else RunActions(Apply(s, actions[0]), actions[1..])
  }

  /** The application invariant, and PROCESSING only while some generation call is outstanding. */
  predicate Inv(s: Session)
  {
    App.Inv(s.app) && (s.app.appState == Processing ==> s.inFlight > 0)
  }

  lemma ApplyInv(s: Session, a: Action)
    requires Inv(s) && Allowed(s, a)
    ensures Inv(Apply(s, a))
  {
  }

  /** Every state the page can reach keeps the application invariant, and never shows the
      spinner without an outstanding generation call. */
  lemma {:induction false} Reachable(s: Session, actions: seq<Action>)
    requires Inv(s)
    ensures RunActions(s, actions).Some? ==> Inv(RunActions(s, actions).value)
    decreases |actions|
  {
    if |actions| > 0 && Allowed(s, actions[0]) {
      ApplyInv(s, actions[0]);
      Reachable(Apply(s, actions[0]), actions[1..]);
    }
  }

  lemma ReachableFromStart(actions: seq<Action>)
    ensures var r := RunActions(Init(), actions);
      r.Some? ==> && r.value.app.appState != Uploading
                  && (r.value.app.appState == Processing ==> r.value.inFlight > 0)
                  && (App.ErrorPanelShown(r.value.app) ==> r.value.app.errorMsg != "")
  {
    App.InitInv();
    Reachable(Init(), actions);
  }

  /** The page offers no way to start while PROCESSING: its only guard is the button. */
  lemma NoStartWhileProcessing(s: Session)
    requires s.app.appState == Processing
    ensures !Allowed(s, PressGenerate) && !Allowed(s, PressRegenerate)
  {
  }

  lemma RunFirst(s: Session, actions: seq<Action>)
    requires |actions| > 0 && Allowed(s, actions[0])
    ensures RunActions(s, actions) == RunActions(Apply(s, actions[0]), actions[1..])
  {
  }

  lemma {:induction false} RunAppend(s: Session, xs: seq<Action>, ys: seq<Action>)
    ensures RunActions(s, xs + ys)
         == if RunActions(s, xs).Some? then RunActions(RunActions(s, xs).value, ys) else None
    decreases |xs|
  {
    if |xs| > 0 {
      assert (xs + ys)[0] == xs[0];
      assert (xs + ys)[1..] == xs[1..] + ys;
      if Allowed(s, xs[0]) {
        RunAppend(Apply(s, xs[0]), xs[1..], ys);
      }
    } else {
      assert xs + ys == ys;
    }
  }

  /** A session that has picked `f` and nothing else. */
  function Picked(f: File, inFlight: nat, phase: Phase): Session
  {
    Session(App.Model(Some(f), None, phase, "", App.InitialModifier), false, inFlight)
  }

  /** Choosing a photo through the file input when none is selected. */
  lemma PickStep(s: Session, f: File)
    requires s.app.selectedFile.None? && !s.dragActive
    ensures Allowed(s, ChangeInput(Some([f])))
    ensures Apply(s, ChangeInput(Some([f])))
         == s.(app := App.SelectImage(s.app, f))
  {
    assert Selections([f]) == [App.Select(f)];
    App.RunFirst(s.app, [App.Select(f)]);
  }

  /** Start, clear, pick again, start again: two generation calls outstanding. */
  lemma TwoInFlight(f: File, g: File)
    ensures RunActions(Init(), [ChangeInput(Some([f])), PressGenerate, PressClear,
                                ChangeInput(Some([g])), PressGenerate])
         == Some(Picked(g, 2, Processing))
  {
    var acts := [ChangeInput(Some([f])), PressGenerate, PressClear,
                 ChangeInput(Some([g])), PressGenerate];
    var s0 := Init();
    PickStep(s0, f);
    var s1 := Picked(f, 0, Idle);
    assert Apply(s0, acts[0]) == s1;
    var s2 := Picked(f, 1, Processing);
    assert Allowed(s1, acts[1]) && Apply(s1, acts[1]) == s2;
    var s3 := Session(App.Model(None, None, Idle, "", App.InitialModifier), false, 1);
    assert Allowed(s2, acts[2]) && Apply(s2, acts[2]) == s3;
    PickStep(s3, g);
    var s4 := Picked(g, 1, Idle);
    assert Apply(s3, acts[3]) == s4;
    var s5 := Picked(g, 2, Processing);
    assert Allowed(s4, acts[4]) && Apply(s4, acts[4]) == s5;
    RunFirst(s0, acts);
    RunFirst(s1, acts[1..]);
    RunFirst(s2, acts[2..]);
    RunFirst(s3, acts[3..]);
    RunFirst(s4, acts[4..]);
  }

  /** Through the page alone: start, clear, pick another photo, start again, the newer
      call fails, the older one then succeeds. Two calls were outstanding at once,
      and the page ends in SUCCESS holding the first photo's result next to the second
      photo, with the failure's text still stored. */
  lemma OverlappingRequests(f: File, g: File, url: string, msg: string)
    requires msg != ""
    ensures RunActions(Init(), [ChangeInput(Some([f])), PressGenerate, PressClear,
                                ChangeInput(Some([g])), PressGenerate,
                                Reject(Some(msg)), Resolve(url)])
         == Some(Session(App.Model(Some(g), Some(url), Success, msg, App.InitialModifier), false, 0))
  {
    var first := [ChangeInput(Some([f])), PressGenerate, PressClear,
                  ChangeInput(Some([g])), PressGenerate];
    var last := [Reject(Some(msg)), Resolve(url)];
    TwoInFlight(f, g);
    RunAppend(Init(), first, last);
    var s5 := Picked(g, 2, Processing);
    var s6 := Session(App.Model(Some(g), None, Error, msg, App.InitialModifier), false, 1);
    assert Apply(s5, last[0]) == s6;
    var s7 := Session(App.Model(Some(g), Some(url), Success, msg, App.InitialModifier), false, 0);
    assert Apply(s6, last[1]) == s7;
    RunFirst(s5, last);
    RunFirst(s6, last[1..]);
    assert first + last == [ChangeInput(Some([f])), PressGenerate, PressClear,
                            ChangeInput(Some([g])), PressGenerate,
                            Reject(Some(msg)), Resolve(url)];
  }
}

=== FILE: types.dfy ===
/** Shared entities of the front end: the uploaded file and the application phase. */
module Types {

  /** A browser `File`: its name, its declared MIME type (`file.type`) and its bytes.
      Only `mimeType` is ever read by the core; the bytes reach the service through
      the browser's data-URL reader, whose output is an input of the model. */
  datatype File = File(name: string, mimeType: string, bytes: seq<bv8>)

  /** The `AppState` enum, all five members, including the never-used UPLOADING. */
  datatype Phase = Idle | Uploading | Processing | Success | Error
}

=== FILE: wrappers.dfy ===
/** Optional values and results, shared by the other modules.
    - Option<T>: a value that may be absent (JavaScript `null`/`undefined`).
    - Result<T, E>: the outcome of an operation that resolves with a value or rejects with an error.
 */
module Wrappers {

  datatype Option<+T> = None | Some(value: T) {

    /** Returns the value, or `default` when absent. */
    function GetOr(default: T): T {
      match this
      case Some(v) => v
      case None => default
    }
  }

  datatype Result<+T, +E> = Ok(value: T) | Err(error: E)
}
